=== FILE: README.md ===
# rust-bundler expansion engine, in Dafny

rust-bundler turns a Cargo package into one Rust source file. Its core is the
`Expander` of `src/lib.rs`, a `syn` visitor that rewrites a parsed file in
place:

- every top-level `extern crate X` that is not in the skip set is resolved
  to the root package itself when the root package names its own library,
  otherwise through the resolve node's dependency edges; one that is
  neither is dropped. The resolved crate's first lib target is parsed and
  expanded recursively, and its items replace the declaration: spliced in
  flat for the root library, wrapped in `pub mod X { .. }` otherwise;
- in the root package, top-level `use <rootlib>::..` items are removed;
- every `mod name;` without content is loaded from `<base>/name.rs`, else
  `<base>/name/mod.rs`, expanded, and given that content;
- in the root package, a leading `<rootlib>` segment is dropped from every
  path;
- `bundle` picks the root package's first `bin` target, else its first `lib`
  target, and runs a depth-0 expander over that file.

The model keeps the tree structure the engine looks at and nothing else:

| file | module | contents |
|---|---|---|
| `wrappers.dfy` | `Wrappers` | `Option`, `Result` with failure propagation |
| `seqs.dfy` | `Seqs` | `retain` and `position` of the standard library, with their contracts |
| `syntax.dfy` | `Syntax` | paths, use trees, items (`ExternCrate`, `Use`, `Mod`, `Other`), closure |
| `errors.dfy` | `Errors` | the fatal `expect`/`unwrap`s of the engine, as error values |
| `files.dfy` | `Files` | the file system as a map from path to parsed content |
| `cargo.dfy` | `Cargo` | the package graph and the lookups made in it |
| `expander.dfy` | `Expander` | the mutually recursive engine and `bundle` |
| `expander_lemmas.dfy` | `ExpanderLemmas` | item-by-item crate expansion, survival, re-visits |
| `expander_invariance.dfy` | `ExpanderInvariance` | the whole-engine inductions: expander fields that are not read, and more fuel for a success |
| `expander_fuel.dfy` | `ExpanderFuel` | more fuel for a failure that the fuel bound did not cause |

An `Expander` value becomes an `Env` (metadata, root package, file system and
skip set, shared by the run) and a `Ctx` (base directory, package, target,
resolve node, depth). The in-place visitor becomes pure functions that return
the rewritten items or the error that would have aborted the run. A module
load inherits package, target, node and depth and replaces only the base
(src/lib.rs:201-209); a crate expansion builds a fresh context from the
crate's package, lib target and node, at depth + 1 (src/lib.rs:134-150).
The engine has no cycle detection, so each nested file expansion consumes
one unit of a `fuel` parameter, and `OutOfFuel` stands for the run that
never ends. More fuel changes no result other than `OutOfFuel`: a success
stays the same success (`ExpanderInvariance.VisitFileFuel`) and any other
failure stays the same failure (`ExpanderFuel.VisitFileFuelFailure`);
`ExpanderFuel.VisitFileMoreFuel` combines the two. So fuel only cuts off
the runs that recurse without end.

The small helpers of `src/lib.rs` are predicates that the contracts are
written in: `target_is` is `Cargo.TargetIs`, `is_extern_crate` is the
`ExternCrate` case of `Syntax.Item`, `path_starts_with` is
`Syntax.PathStartsWith` (false on an empty path) and `is_use_path` is
`Syntax.IsUsePath` (true only for a `UseTree::Path` led by the name).
`Expander.IsRoot`, `Expander.RootName` and `Expander.IsRootLibExpand` are
`is_root`, `root_lib_name` and the test of src/lib.rs:116.

Behaviour kept as the code has it:

- The root-library case of `extern crate` checks only that the expander is
  working on the root package and that the name is the root library's name.
  The target kind is not checked (src/lib.rs:116).
- The skip set is exactly what `bundle` is given. `main.rs` passes the
  trailing command-line arguments and nothing else (src/main.rs:11).
- A loaded module's items are visited by the expander that loads them and
  then again by the one that declared the module. Likewise, the items of an
  expanded crate are visited again by the enclosing expander
  (`ExpanderLemmas.CrateItemsRevisited`, for the root library spliced in
  flat, whose imports are pruned and paths rewritten once more). In the root
  package the second visit strips the root library's name once more:
  `ExpanderLemmas.LoadedModRevisited`, `ExpanderLemmas.SiblingFileRevisited`
  and, for a module file holding `R::R::rest` with `R` the root library's
  name, `ExpanderLemmas.ModFileDoubleStrip`, which gives the module the
  content `rest`.
- `extern crate` and `use` rewriting happens only at the top level of a
  file, never inside an inline `mod { .. }`. So the closure the engine
  reaches covers modules only; an `extern crate` nested in an inline module
  survives (`ExpanderLemmas.ExternInInlineModKept`).
- A module declared inside an inline module is resolved against the base
  directory of the file that holds the inline module, because an inline
  module keeps its expander (src/lib.rs:185-187, 262-265): for
  `mod a { mod b; }` the file is `<base>/b.rs`, not `<base>/a/b.rs`
  (`ExpanderLemmas.InlineModChildLoadedBeside`).
- A readable module candidate that does not parse is fatal; the next
  candidate is not tried.
- A `use` tree holds identifiers, not paths, so path rewriting never changes
  a `use` item.

## Model

| member | source | states |
|---|---|---|
| `Files.Parent` | src/lib.rs:47-49 | a parent exists exactly for a non-empty path, and appending the last component gives the path back |
| `Files.ReadParse` | src/lib.rs:52-53 | reading and parsing succeed exactly when the file exists and parses; a missing file fails to read; a file that exists but does not parse fails to parse; success yields the file's items |
| `Cargo.FindTarget` | src/lib.rs:73-76 | a target of the kind is found exactly when the package has one, and it is the first target of that kind |
| `Cargo.PackageTarget` | src/lib.rs:72-81 | succeeds exactly when the package has a target of the kind, with the first such target; otherwise fails naming the kind and the package |
| `Cargo.SelectTarget` | src/lib.rs:34-39 | the entry target is the first bin when there is one, else the first lib; the run fails with "target not found" exactly when there is neither |
| `Cargo.RootLibName` | src/lib.rs:224-228 | the name of the first lib target when there is one, else the package name |
| `Cargo.PackageById` | src/lib.rs:229-235 | fails exactly when no package has the id; otherwise returns the first package with that id |
| `Cargo.NodeById` | src/lib.rs:41-45 | fails exactly when no resolve node has the id; otherwise returns the first node with that id |
| `Cargo.DepOf` | src/lib.rs:120 | none exactly when no dependency edge has the name; otherwise the package of the first edge with that name |
| `Seqs.Filter` | src/lib.rs:176 | `retain` keeps only elements that satisfy the predicate, in their original order (a subsequence of the input) |
| `Seqs.FilterCounts` | src/lib.rs:176 | `retain` keeps every element that satisfies the predicate exactly as often as it occurs, and drops every other one |
| `Seqs.FilterIdempotent` | src/lib.rs:176 | retaining twice with the same predicate retains nothing more |
| `Seqs.FirstIndex` | src/lib.rs:229-234 | `find` stops at the first element that satisfies the predicate; there is none exactly when no element satisfies it |
| `Expander.StripPath` | src/lib.rs:214-222 | in the root package a path led by the root library's name loses exactly that first segment; any other path, the empty one included, is unchanged; the leading `::` is kept |
| `Expander.ExpandUsePath` | src/lib.rs:173-178 | outside the root package nothing changes; in it no top-level `use <rootlib>::..` remains |
| `Expander.ExpandUsePathRetains` | src/lib.rs:173-178 | pruning the imports adds nothing, keeps every other item with its multiplicity, and keeps the original order |
| `Expander.ResolveModFirstCandidate` | src/lib.rs:184-193 | of the two candidates, `name.rs` beside the file (keeping the base) and `name/mod.rs` (moving the base into `name`), the first that exists is taken; nothing is found exactly when neither exists |
| `Expander.ReadMod` | src/lib.rs:180-200 | "mod not found" exactly when neither candidate exists; otherwise the first candidate's items with its base, or a parse failure for that same candidate |
| `Expander.LoadCrate` | src/lib.rs:130-147 | a load yields the first package with the id, its first lib target, the parsed file at that target's source path, the file's directory and the package's resolve node, and succeeds exactly when all of these exist; an unknown package id fails as such |
| `Expander.VisitFile` | src/lib.rs:245-253 | an expanded file is closed and every `extern crate` left at its top is a skipped one |
| `Expander.VisitFileNoRootUse` | src/lib.rs:173-178 | in the root package no top-level `use <rootlib>::..` is left in an expanded file, although the visit runs after the pruning |
| `Expander.ExpandExternCrates` | src/lib.rs:99-171 | after crate expansion every `extern crate` left in the list is a skipped one |
| `Expander.ExpandExternCrate` | src/lib.rs:102-167 | a skipped name or other item is kept verbatim; the root library is spliced flat; a name without a dependency edge is dropped without failure; a dependency becomes one `pub mod name` holding its expanded library, failing exactly when that expansion fails |
| `Expander.ExpandCrate` | src/lib.rs:130-151 | a successful crate expansion is closed and its top-level `extern crate` items are all skipped ones |
| `Expander.ExpandNested` | src/lib.rs:201-210 | a nested expansion that succeeds had fuel left, is closed, and keeps only skipped `extern crate` items at its top |
| `Expander.LoadMod` | src/lib.rs:180-212 | a module with no candidate file fails with "mod not found"; a successful load is closed with only skipped `extern crate` items at its top |
| `Expander.VisitItems` | src/lib.rs:250-252 | one visited item per item, in order, each closed and keeping its kind and header |
| `Expander.VisitItem` | src/lib.rs:255-275 | a visited item is closed; `extern crate` and `use` items are unchanged; modules keep visibility and name; other items keep their number of paths |
| `Expander.Bundle` | src/lib.rs:19-66 | the lookups fail in source order: no resolved root, no root package, neither bin nor lib ("target not found"), no root node, no parent directory, then the read or parse failure of the entry file; a bundle is closed, keeps only skipped `extern crate` items at its top and has no top-level `use <rootlib>::..` |
| `Expander.HeadsKept` | src/lib.rs:250-252 | the visitor neither adds nor changes any top-level `extern crate` or `use` item |
| `Expander.TopLevelKept` | src/lib.rs:249-252 | the guarantees of the two top-level rewrites survive the visit of the items |
| `ExpanderLemmas.ExpandExternCratesAppend` | src/lib.rs:100-101 | expanding a concatenation is expanding each part, the left part first, the first failure winning |
| `ExpanderLemmas.ExpandExternCratesAt` | src/lib.rs:152-170 | each item is replaced at its own position, between the expansions of the items before and after it |
| `ExpanderLemmas.ExpandExternCratesNoop` | src/lib.rs:167 | a list with no expandable `extern crate` comes back unchanged |
| `ExpanderLemmas.KeptItemsSurvive` | src/lib.rs:101-168 | every item that is not an expandable `extern crate` is still in the expanded list |
| `ExpanderLemmas.SkippedCrateSurvives` | src/lib.rs:102-107 | a skipped `extern crate` at the top of a file is still there, verbatim, after the whole file is expanded |
| `ExpanderLemmas.ExpandUsePathIdempotent` | src/lib.rs:176 | pruning the imports twice removes nothing more |
| `ExpanderLemmas.VisitItemsClosed` | src/lib.rs:262-266 | on a closed list the visitor loads nothing and cannot fail: it is the structural map of the path rewrite |
| `ExpanderLemmas.VisitItemClosed` | src/lib.rs:255-275 | the same for one closed item |
| `ExpanderLemmas.MapItemsPathsIdentity` | src/lib.rs:269-275 | a path rewrite that changes no path changes no tree |
| `ExpanderLemmas.MapItemPathsIdentity` | src/lib.rs:270 | the same for one item |
| `ExpanderLemmas.RevisitOutsideRoot` | src/lib.rs:215 | outside the root package, visiting a closed tree again changes nothing |
| `ExpanderLemmas.LoadedModRevisited` | src/lib.rs:261-266 | a loaded module's items are visited again by the declaring expander, which applies the path rewrite once more and cannot fail |
| `ExpanderLemmas.StripLeadingRootName` | src/lib.rs:214-222 | in the root package one visit turns the lone path `R::rest` into `rest`, with `R` the root library's name |
| `ExpanderLemmas.VisitFileOnlyStrips` | src/lib.rs:245-253 | a closed file with no expandable `extern crate` and no `use <rootlib>::..` is expanded by the path rewrite alone |
| `ExpanderLemmas.SiblingFileRevisited` | src/lib.rs:186-211 | a declared module, of either visibility, whose `name.rs` parses gets as content the nested expansion of that file, rewritten once more by the declaring expander |
| `ExpanderLemmas.RootFileStrippedOnce` | src/lib.rs:245-253 | in the root package, expanding a file that holds the lone path `R::R::rest` strips one `R` |
| `ExpanderLemmas.RootModContentStripped` | src/lib.rs:261-266 | a root-package module whose file expands to `R::rest` gets the content `rest`, the declaring expander stripping `R` again |
| `ExpanderLemmas.ModFileDoubleStrip` | src/lib.rs:201-211 | in the root package, a declared module whose `name.rs` holds the lone path `R::R::rest` gets the content `rest`: both visits strip the root library's name |
| `ExpanderLemmas.ExternInInlineModKept` | src/lib.rs:249 | an `extern crate` inside an inline module is neither expanded nor dropped |
| `ExpanderLemmas.DependencyCrateInlined` | src/lib.rs:119-167 | a dependency `extern crate x` becomes `pub mod x` holding the crate's lib file as expanded by the crate's own expander, one unit of fuel down, and fails exactly as that expansion fails |
| `ExpanderLemmas.CrateItemsRevisited` | src/lib.rs:245-253 | in the root package, `extern crate <rootlib>` becomes the root library's expanded items with their imports pruned and their paths rewritten once more by the enclosing expander |
| `ExpanderLemmas.BundleIs` | src/lib.rs:28-63 | once every lookup succeeds, the bundle is the depth-0 expansion of the entry file by an expander rooted at its directory, with the root package, the entry target and the root's resolve node |
| `ExpanderLemmas.InlineModChildLoadedBeside` | src/lib.rs:185-187 | in `mod a { mod b; }`, `b` is loaded from `b.rs` under the enclosing file's base, not under `a/`: with that file empty, `b` gets empty content whatever lies under `a/` |
| `ExpanderInvariance.VisitFileCtx` | src/lib.rs:93-242 | two expanders that agree on base, package and node expand a file identically, whatever their targets and depths |
| `ExpanderInvariance.ExpandExternCratesCtx` | src/lib.rs:99-171 | the same for crate expansion of a list |
| `ExpanderInvariance.ExpandExternCrateCtx` | src/lib.rs:116 | the same for one `extern crate`: the root-library test reads neither target nor depth |
| `ExpanderInvariance.ExpandCrateCtx` | src/lib.rs:149 | the same for a crate expansion, whose depth is the only field taken from the caller |
| `ExpanderInvariance.ExpandNestedCtx` | src/lib.rs:201-210 | the same for a nested expansion |
| `ExpanderInvariance.LoadModCtx` | src/lib.rs:201-209 | the same for a module load, which inherits target and depth unchanged |
| `ExpanderInvariance.VisitItemsCtx` | src/lib.rs:250-252 | the same for the visit of a list |
| `ExpanderInvariance.VisitItemCtx` | src/lib.rs:255-275 | the same for the visit of one item |
| `ExpanderInvariance.VisitFileFuel` | src/lib.rs:245-253 | a successful file expansion gives the same result with more fuel |
| `ExpanderInvariance.ExpandExternCratesFuel` | src/lib.rs:99-171 | the same for crate expansion of a list |
| `ExpanderInvariance.ExpandExternCrateFuel` | src/lib.rs:102-167 | the same for one `extern crate` |
| `ExpanderInvariance.ExpandCrateFuel` | src/lib.rs:134-151 | the same for the recursive expansion of a crate |
| `ExpanderInvariance.ExpandNestedFuel` | src/lib.rs:201-210 | the same for a nested expansion |
| `ExpanderInvariance.LoadModFuel` | src/lib.rs:201-210 | the same for the recursive expansion of a module file |
| `ExpanderInvariance.VisitItemsFuel` | src/lib.rs:250-252 | the same for the visit of a list |
| `ExpanderInvariance.VisitItemFuel` | src/lib.rs:255-267 | the same for the visit of one item |
| `ExpanderFuel.VisitFileMoreFuel` | src/lib.rs:245-253 | any result of a file expansion other than `OutOfFuel` is the same with more fuel |
| `ExpanderFuel.VisitFileFuelFailure` | src/lib.rs:245-253 | a file expansion that fails for a reason of its own fails the same way with more fuel |
| `ExpanderFuel.ExpandExternCratesFuelFailure` | src/lib.rs:99-171 | the same for crate expansion of a list |
| `ExpanderFuel.ExpandExternCrateFuelFailure` | src/lib.rs:102-167 | the same for one `extern crate` |
| `ExpanderFuel.ExpandCrateFuelFailure` | src/lib.rs:130-151 | the same for a crate expansion, including a failed lookup, read or parse |
| `ExpanderFuel.ExpandNestedFuelFailure` | src/lib.rs:201-210 | the same for a nested expansion |
| `ExpanderFuel.LoadModFuelFailure` | src/lib.rs:180-210 | the same for a module load, including a missing or unparsable module file |
| `ExpanderFuel.VisitItemsFuelFailure` | src/lib.rs:250-252 | the same for the visit of a list |
| `ExpanderFuel.VisitItemFuelFailure` | src/lib.rs:255-267 | the same for the visit of one item |

## Left out

- Running `cargo metadata` and unwrapping its resolve graph (src/lib.rs:21-26): an external process. The package graph is an input, and a missing root is the `RootNotResolved` error.
- `syn` parsing and `into_token_stream` rendering: a foreign library. Files are pre-parsed item lists, and an unparsable file is the `Malformed` entry.
- `read_file` and real path semantics: I/O. A read is a map lookup over paths given as component lists.
- `prettify` (rustfmt, `catch_unwind` and the `try !` patch): a foreign formatter and panic handling.
- `eprintln!` diagnostics, including the warning for a dropped `extern crate`: side effects only, apart from the `to_str().unwrap()` in their arguments (src/lib.rs:112, 197), which aborts on a non-Unicode directory; paths here are strings, so that case cannot arise. Because of this the depth is carried but read by nothing.
- `src/main.rs`: argument parsing, `process::exit` and writing the output. Its only input to the engine is the skip set, which is a parameter of `Bundle`.
- The visits of attributes, visibilities, identifiers and path segments, and items nested inside other items' bodies: every item other than `extern crate`, `use` and `mod` is abstracted to the paths it contains.
- `extern crate x as y` renames and generic arguments on path segments: the model keeps only names.
- Unbounded recursion: each nested file expansion consumes fuel, and a run that recurses forever ends in `OutOfFuel` instead of never finishing.
- Expander.LoadCrate: states what is loaded and that the load succeeds exactly when every lookup does, but, beyond an unknown package id, not which error a failed load reports when several lookups fail; the body follows the order of src/lib.rs:130-147.

=== FILE: cargo.dfy ===
/** The package graph `cargo metadata` reports, taken as an immutable input,
    and the lookups the bundler makes in it. */
module Cargo {
  import opened Wrappers
  import opened Syntax
  import opened Errors
  import opened Files
  import opened Seqs

  type PackageId = string

  /** A build target; `kinds` holds strings such as "bin", "lib", "rlib". */
  datatype Target = Target(name: Name, kinds: seq<string>, srcPath: FilePath)

  datatype Package = Package(id: PackageId, name: Name, targets: seq<Target>)

  /** A resolved dependency edge: `name` is how the consumer's source calls it. */
  datatype Dep = Dep(name: Name, pkg: PackageId)

  /** A node of the resolve graph: one package and its resolved dependencies. */
  datatype Node = Node(id: PackageId, deps: seq<Dep>)

  /** `root` is `None` when the metadata has no resolve graph or no root. */
  datatype Metadata = Metadata(packages: seq<Package>, nodes: seq<Node>, root: Option<PackageId>)

  predicate TargetIs(t: Target, kind: string)
  {
    kind in t.kinds
  }

  predicate HasTarget(pkg: Package, kind: string)
  {
    exists i | 0 <= i < |pkg.targets| :: TargetIs(pkg.targets[i], kind)
  }

  /** `targets[i]` is the first target of the given kind. */
  predicate FirstOfKind(pkg: Package, kind: string, i: int)
  {
    && 0 <= i < |pkg.targets|
    && TargetIs(pkg.targets[i], kind)
    && forall j | 0 <= j < i :: !TargetIs(pkg.targets[j], kind)
  }

  /** The first target of the given kind, like `targets.iter().find(..)`. */
  function FindTarget(pkg: Package, kind: string): (r: Option<Target>)
    ensures r.Some? <==> HasTarget(pkg, kind)
    ensures r.Some? ==> exists i | FirstOfKind(pkg, kind, i) :: pkg.targets[i] == r.value
  {
    match FirstIndex(pkg.targets, (t: Target) => TargetIs(t, kind))
    case None => None
    case Some(i) => assert FirstOfKind(pkg, kind, i); Some(pkg.targets[i])
  }

  /** `package_target`: the first target of a kind, fatal if there is none. */
  function PackageTarget(pkg: Package, kind: string): (r: Result<Target, Error>)
    ensures r.Success? <==> HasTarget(pkg, kind)
    ensures r.Failure? ==> r.error == TargetKindNotFound(kind, pkg.name)
    ensures r.Success? ==> exists i | FirstOfKind(pkg, kind, i) :: pkg.targets[i] == r.value
  {
    match FindTarget(pkg, kind)
    case None => Failure(TargetKindNotFound(kind, pkg.name))
    case Some(t) => Success(t)
  }

  /** The entry target of a bundling run: the first `bin`, else the first
      `lib`, else the run fails. */
  function SelectTarget(pkg: Package): (r: Result<Target, Error>)
    ensures r.Failure? <==> !HasTarget(pkg, "bin") && !HasTarget(pkg, "lib")
    ensures r.Failure? ==> r.error == TargetNotFound
    ensures HasTarget(pkg, "bin") ==>
      r.Success? && exists i | FirstOfKind(pkg, "bin", i) :: pkg.targets[i] == r.value
    ensures !HasTarget(pkg, "bin") && HasTarget(pkg, "lib") ==>
      r.Success? && exists i | FirstOfKind(pkg, "lib", i) :: pkg.targets[i] == r.value
  {
    match FindTarget(pkg, "bin")
    case Some(t) => Success(t)
    case None =>
      match FindTarget(pkg, "lib")
      case Some(t) => Success(t)
      case None => Failure(TargetNotFound)
  }

  /** `root_lib_name`: the name of the root package's first lib target, or
      the package name when it has no lib target. */
  function RootLibName(root: Package): (r: Name)
    ensures HasTarget(root, "lib") ==>
      exists i | FirstOfKind(root, "lib", i) :: r == root.targets[i].name
    ensures !HasTarget(root, "lib") ==> r == root.name
  {
    match FindTarget(root, "lib")
    case Some(t) => t.name
    case None => root.name
  }

  /** `package_by_id`: the first package with that id. */
  function PackageById(meta: Metadata, id: PackageId): (r: Result<Package, Error>)
    ensures r.Success? ==> r.value.id == id
    ensures r.Success? ==> exists i | 0 <= i < |meta.packages| ::
      && meta.packages[i] == r.value
      && forall j | 0 <= j < i :: meta.packages[j].id != id
    ensures r.Failure? <==> forall j | 0 <= j < |meta.packages| :: meta.packages[j].id != id
    ensures r.Failure? ==> r.error == PackageNotFound(id)
  {
    match FirstIndex(meta.packages, (q: Package) => q.id == id)
    case None => Failure(PackageNotFound(id))
    case Some(i) => Success(meta.packages[i])
  }

  /** The first resolve node with that id. */
  function NodeById(meta: Metadata, id: PackageId): (r: Result<Node, Error>)
    ensures r.Success? ==> r.value.id == id
    ensures r.Success? ==> exists i | 0 <= i < |meta.nodes| ::
      && meta.nodes[i] == r.value
      && forall j | 0 <= j < i :: meta.nodes[j].id != id
    ensures r.Failure? <==> forall j | 0 <= j < |meta.nodes| :: meta.nodes[j].id != id
    ensures r.Failure? ==> r.error == NodeNotFound(id)
  {
    match FirstIndex(meta.nodes, (n: Node) => n.id == id)
    case None => Failure(NodeNotFound(id))
    case Some(i) => Success(meta.nodes[i])
  }

  /** The package a node's first dependency edge of that name points to. */
  function DepOf(node: Node, name: Name): (r: Option<PackageId>)
    ensures r.None? <==> forall j | 0 <= j < |node.deps| :: node.deps[j].name != name
    ensures r.Some? ==> exists j | 0 <= j < |node.deps| ::
      && node.deps[j].name == name
      && node.deps[j].pkg == r.value
      && forall k | 0 <= k < j :: node.deps[k].name != name
  {
    match FirstIndex(node.deps, (d: Dep) => d.name == name)
    case None => None
    case Some(j) => Some(node.deps[j].pkg)
  }
}

=== FILE: errors.dfy ===
/** The fatal conditions of the engine: each is a `panic!`, `expect` or
    `unwrap` in the bundler, which aborts with no output. The
    `to_str().unwrap()` calls that build diagnostic messages are not among
    them: paths here are strings, so they cannot fail. */
module Errors {

  datatype Error =
    | RootNotResolved                   // metadata has no resolve graph or no root
    | PackageNotFound(id: string)       // no package with that id
    | TargetNotFound                    // root package has neither bin nor lib
    | NodeNotFound(id: string)          // no resolve node with that id
    | TargetKindNotFound(kind: string, package: string)  // a package without a target of that kind
    | NoParent(path: seq<string>)       // a source path without a parent directory
    | ReadFailed(path: seq<string>)
    | ParseFailed(path: seq<string>)
    | ModNotFound(name: string)
    | OutOfFuel                         // stands for unbounded recursion on a cycle
}

=== FILE: expander.dfy ===
/** The recursive expansion engine: an `Expander` walks a parsed file,
    inlines `extern crate` declarations and file-backed modules, prunes
    imports of the root library and strips the root library's name from
    paths, until the tree is closed.

    Each `Expander` value of the bundler is an `Env` (shared by the whole
    run) plus a `Ctx` (per call). The visitor methods become mutually
    recursive functions over immutable trees; `fuel` bounds the number of
    nested file expansions, standing in for the recursion the bundler
    leaves unguarded. */
module Expander {
  import opened Wrappers
  import opened Seqs
  import opened Syntax
  import opened Errors
  import opened Files
  import opened Cargo

  /** What every expander of one run shares: the metadata, the root package
      found by `bundle` (id and package), the file system and the names
      never to expand. */
  datatype Env = Env(
    meta: Metadata,
    rootId: PackageId,
    rootPackage: Package,
    fs: FileSystem,
    skip: set<Name>)

  /** The per-call fields of an `Expander`: the directory `mod name;` is
      resolved against, the package being expanded with its chosen target
      and resolve node, and the nesting depth. The target is carried but no
      decision reads it; the depth only appears in diagnostics. */
  datatype Ctx = Ctx(base: FilePath, package: Package, target: Target, node: Node, depth: nat)

  /** `is_root`: the package being expanded is the run's root package. */
  predicate IsRoot(env: Env, ctx: Ctx)
  {
    env.rootId == ctx.package.id
  }

  /** `root_lib_name`, always looked up on the run's root package. */
  function RootName(env: Env): Name
  {
    RootLibName(env.rootPackage)
  }

  /** An `extern crate` the expander will try to inline. */
  predicate Expandable(env: Env, item: Item)
  {
    item.ExternCrate? && item.name !in env.skip
  }

  /** `is_root_lib_expand`: only the package and the name are checked. */
  predicate IsRootLibExpand(env: Env, ctx: Ctx, name: Name)
  {
    IsRoot(env, ctx) && RootName(env) == name
  }

  /** `expand_crate_path`: in the root package, a path led by the root
      library's name loses exactly that segment; every other path,
      the empty one included, is left alone. */
  function StripPath(env: Env, ctx: Ctx, p: Path): (r: Path)
    ensures r.global == p.global
    ensures IsRoot(env, ctx) && PathStartsWith(p, RootName(env)) ==>
      [RootName(env)] + r.segments == p.segments
    ensures !(IsRoot(env, ctx) && PathStartsWith(p, RootName(env))) ==> r == p
  {
    if IsRoot(env, ctx) && PathStartsWith(p, RootName(env)) then
      Path(p.global, p.segments[1..])
    else
      p
  }

  /** The path rewrite of one expander, as a function value. */
  function Stripper(env: Env, ctx: Ctx): Path -> Path
  {
    p => StripPath(env, ctx, p)
  }

  /** The `retain` predicate of `expand_use_path`, as a function value. */
  function KeepItem(env: Env): Item -> bool
  {
    x => !IsUsePath(x, RootName(env))
  }

  /** `expand_use_path`: in the root package, the top-level `use` items
      whose tree is a path led by the root library's name are removed;
      outside the root package nothing changes. `ExpandUsePathRetains`
      states what is kept. */
  function ExpandUsePath(env: Env, ctx: Ctx, items: seq<Item>): (r: seq<Item>)
    ensures !IsRoot(env, ctx) ==> r == items
    ensures forall i | 0 <= i < |r| :: !(IsRoot(env, ctx) && IsUsePath(r[i], RootName(env)))
  {
    if IsRoot(env, ctx) then Filter(items, KeepItem(env)) else items
  }

  /** Every item other than a removed `use` is kept by import pruning, in
      order and with its multiplicity, and nothing is added. */
  lemma ExpandUsePathRetains(env: Env, ctx: Ctx, items: seq<Item>)
    ensures multiset(ExpandUsePath(env, ctx, items)) <= multiset(items)
    ensures forall x | x in items && !(IsRoot(env, ctx) && IsUsePath(x, RootName(env))) ::
      multiset(ExpandUsePath(env, ctx, items))[x] == multiset(items)[x]
    ensures IsSubsequence(ExpandUsePath(env, ctx, items), items)
  {
    if IsRoot(env, ctx) {
      FilterCounts(items, KeepItem(env));
    } else {
      SubsequenceRefl(items);
    }
  }

  /** Where `mod name;` may live, in the order `expand_mods` tries them:
      the base directory of the nested expansion and the file name in it. */
  function ModCandidates(base: FilePath, name: Name): seq<(FilePath, string)>
  {
    [(base, name + ".rs"), (base + [name], "mod.rs")]
  }

  function CandidateFile(c: (FilePath, string)): FilePath
  {
    c.0 + [c.1]
  }

  /** The first readable candidate of `expand_mods`, as (nested base, file). */
  function ResolveMod(fs: FileSystem, base: FilePath, name: Name): Option<(FilePath, FilePath)>
  {
    if base + [name + ".rs"] in fs then Some((base, base + [name + ".rs"]))
    else if base + [name, "mod.rs"] in fs then Some((base + [name], base + [name, "mod.rs"]))
    else None
  }

  /** Module resolution takes the first candidate that exists, in the order
      `ModCandidates` lists them: the sibling `name.rs`, which keeps the
      base, wins over `name/mod.rs`, which moves the base into `name`; with
      neither, nothing is found. */
  lemma ResolveModFirstCandidate(fs: FileSystem, base: FilePath, name: Name)
    ensures var cs := ModCandidates(base, name);
      ResolveMod(fs, base, name).None? <==> forall i | 0 <= i < |cs| :: CandidateFile(cs[i]) !in fs
    ensures var cs, r := ModCandidates(base, name), ResolveMod(fs, base, name);
      r.Some? ==> exists i | 0 <= i < |cs| ::
        && CandidateFile(cs[i]) in fs
        && (forall j | 0 <= j < i :: CandidateFile(cs[j]) !in fs)
        && r.value == (cs[i].0, CandidateFile(cs[i]))
  {
    var cs := ModCandidates(base, name);
    assert CandidateFile(cs[0]) == base + [name + ".rs"];
    assert CandidateFile(cs[1]) == base + [name, "mod.rs"];
  }

  /** The visitor keeps every `extern crate` and `use` item where it was,
      so those of the visited list are those of the list visited. */
  lemma HeadsKept(before: seq<Item>, after: seq<Item>)
    requires |after| == |before|
    requires forall i | 0 <= i < |before| :: SameHead(before[i], after[i])
    ensures forall x | x in after && (x.ExternCrate? || x.Use?) :: x in before
  {
    forall x | x in after && (x.ExternCrate? || x.Use?)
      ensures x in before
    {
      var i :| 0 <= i < |after| && after[i] == x;
      assert SameHead(before[i], after[i]);
    }
  }

  /** What `visit_file_mut` needs of its three stages at the top level. */
  lemma TopLevelKept(env: Env, ctx: Ctx, expanded: seq<Item>, pruned: seq<Item>, visited: seq<Item>)
    requires ExternsSkipped(env.skip, expanded)
    requires pruned == ExpandUsePath(env, ctx, expanded)
    requires |visited| == |pruned|
    requires forall i | 0 <= i < |pruned| :: SameHead(pruned[i], visited[i])
    ensures ExternsSkipped(env.skip, visited)
    ensures IsRoot(env, ctx) ==> forall x | x in visited :: !IsUsePath(x, RootName(env))
  {
    HeadsKept(pruned, visited);
    ExpandUsePathRetains(env, ctx, expanded);
    forall x | x in pruned
      ensures x in expanded
    {
      assert multiset(pruned)[x] > 0;
    }
  }

  /** What a crate expansion loads before expanding it. */
  datatype CrateSource = CrateSource(package: Package, target: Target, lib: seq<Item>, base: FilePath, node: Node)

  /** The lookups of a crate expansion, each fatal on failure: the package
      by id, its first lib target, that target's parsed file, the file's
      directory and the package's resolve node. */
  function LoadCrate(env: Env, crateId: PackageId): (r: Result<CrateSource, Error>)
    ensures r.Success? ==>
      && r.value.package.id == crateId
      && TargetIs(r.value.target, "lib")
      && r.value.node.id == crateId
    // what is loaded: the first package with the id, its first lib target,
    // the file at that target's source path, its directory, and the node
    ensures r.Success? ==>
      && PackageById(env.meta, crateId) == Success(r.value.package)
      && PackageTarget(r.value.package, "lib") == Success(r.value.target)
      && r.value.target.srcPath in env.fs
      && env.fs[r.value.target.srcPath] == Parsed(r.value.lib)
      && Parent(r.value.target.srcPath) == Some(r.value.base)
      && NodeById(env.meta, crateId) == Success(r.value.node)
    // and the load succeeds whenever every one of those lookups does
    ensures (&& PackageById(env.meta, crateId).Success?
             && PackageTarget(PackageById(env.meta, crateId).value, "lib").Success?
             && var t := PackageTarget(PackageById(env.meta, crateId).value, "lib").value;
                && t.srcPath in env.fs && env.fs[t.srcPath].Parsed? && |t.srcPath| > 0
                && NodeById(env.meta, crateId).Success?) ==> r.Success?
    ensures PackageById(env.meta, crateId).Failure? ==> r == Failure(PackageNotFound(crateId))
  {
    var package :- PackageById(env.meta, crateId);
    var target :- PackageTarget(package, "lib");
    var lib :- ReadParse(env.fs, target.srcPath);
    match Parent(target.srcPath)
    case None => Failure(NoParent(target.srcPath))
    case Some(base) =>
      var node :- NodeById(env.meta, crateId);
      Success(CrateSource(package, target, lib, base, node))
  }

  /** The file lookup of `expand_mods`: the first readable candidate,
      parsed, with the base directory its own modules resolve against.
      Neither candidate readable is the fatal "mod not found"; a readable
      candidate that does not parse is fatal too, without trying the next. */
  function ReadMod(fs: FileSystem, base: FilePath, name: Name): (r: Result<(FilePath, seq<Item>), Error>)
    ensures ResolveMod(fs, base, name).None? <==> r == Failure(ModNotFound(name))
    ensures base + [name + ".rs"] in fs ==>
      r == (if fs[base + [name + ".rs"]].Parsed? then Success((base, fs[base + [name + ".rs"]].items))
            else Failure(ParseFailed(base + [name + ".rs"])))
    ensures base + [name + ".rs"] !in fs && base + [name, "mod.rs"] in fs ==>
      r == (if fs[base + [name, "mod.rs"]].Parsed? then Success((base + [name], fs[base + [name, "mod.rs"]].items))
            else Failure(ParseFailed(base + [name, "mod.rs"])))
  {
    match ResolveMod(fs, base, name)
    case None => Failure(ModNotFound(name))
    case Some((dir, file)) =>
      var items :- ReadParse(fs, file);
      Success((dir, items))
  }

  /** `visit_file_mut`: the two top-level rewrites of the file, then a visit
      of every resulting item. The result is closed and its `extern crate`
      items are all skipped ones. */
  function VisitFile(env: Env, ctx: Ctx, items: seq<Item>, fuel: nat): (r: Result<seq<Item>, Error>)
    ensures r.Success? ==> Closed(r.value) && ExternsSkipped(env.skip, r.value)
    decreases fuel, 2, 0, 0
  {
    var expanded :- ExpandExternCrates(env, ctx, items, fuel);
    var pruned := ExpandUsePath(env, ctx, expanded);
    var visited :- VisitItems(env, ctx, pruned, fuel);
    TopLevelKept(env, ctx, expanded, pruned, visited);
    Success(visited)
  }

  /** `expand_extern_crate`: every item is replaced, at its own position,
      by what `ExpandExternCrate` makes of it. */
  function ExpandExternCrates(env: Env, ctx: Ctx, items: seq<Item>, fuel: nat): (r: Result<seq<Item>, Error>)
    ensures r.Success? ==> ExternsSkipped(env.skip, r.value)
    decreases fuel, 1, |items|, 1
  {
    if |items| == 0 then Success([])
    else
      var head :- ExpandExternCrate(env, ctx, items[0], fuel);
      var tail :- ExpandExternCrates(env, ctx, items[1..], fuel);
      Success(head + tail)
  }

  /** One iteration of the loop of `expand_extern_crate`. */
  function ExpandExternCrate(env: Env, ctx: Ctx, item: Item, fuel: nat): (r: Result<seq<Item>, Error>)
    // not an `extern crate`, or a skipped one (checked before anything else): kept verbatim
    ensures !Expandable(env, item) ==> r == Success([item])
    // the root library named from the root package: its items, spliced in flat
    ensures Expandable(env, item) && IsRootLibExpand(env, ctx, item.name) ==>
      r == ExpandCrate(env, ctx, env.rootId, fuel)
    // no dependency edge of that name: dropped, without failure
    ensures (Expandable(env, item) && !IsRootLibExpand(env, ctx, item.name) &&
             DepOf(ctx.node, item.name).None?) ==> r == Success([])
    // a dependency: one `pub mod name { .. }` holding the expanded library
    ensures (Expandable(env, item) && !IsRootLibExpand(env, ctx, item.name) &&
             DepOf(ctx.node, item.name).Some?) ==>
        var lib := ExpandCrate(env, ctx, DepOf(ctx.node, item.name).value, fuel);
        (r.Success? <==> lib.Success?) &&
        (r.Success? ==> r.value == [Mod(true, item.name, Inline(lib.value))])
    ensures r.Success? ==> ExternsSkipped(env.skip, r.value)
    ensures r.Success? && Expandable(env, item) ==> Closed(r.value)
    decreases fuel, 1, 0, 0
  {
    if !Expandable(env, item) then
      Success([item])
    else if IsRootLibExpand(env, ctx, item.name) then
      ExpandCrate(env, ctx, env.rootId, fuel)
    else
      match DepOf(ctx.node, item.name)
      case None => Success([])
      case Some(id) =>
        var lib :- ExpandCrate(env, ctx, id, fuel);
        assert ClosedItem(Mod(true, item.name, Inline(lib)));
        Success([Mod(true, item.name, Inline(lib))])
  }

  /** The body of a crate expansion: expand the package's lib file with a
      fresh expander one level deeper. */
  function ExpandCrate(env: Env, ctx: Ctx, crateId: PackageId, fuel: nat): (r: Result<seq<Item>, Error>)
    ensures r.Success? ==> fuel > 0 && Closed(r.value) && ExternsSkipped(env.skip, r.value)
    decreases fuel, 0, 0, 1
  {
    var src :- LoadCrate(env, crateId);
    ExpandNested(env, CrateCtx(ctx, src), src.lib, fuel)
  }

  /** The expander a crate's lib file gets: rooted at the file's directory,
      with the crate's own package, target and node, one level deeper. */
  function CrateCtx(ctx: Ctx, src: CrateSource): Ctx
  {
    Ctx(src.base, src.package, src.target, src.node, ctx.depth + 1)
  }

  /** A freshly loaded file expanded by a nested expander; each nesting
      consumes one unit of fuel. */
  function ExpandNested(env: Env, nested: Ctx, items: seq<Item>, fuel: nat): (r: Result<seq<Item>, Error>)
    ensures r.Success? ==> fuel > 0 && Closed(r.value) && ExternsSkipped(env.skip, r.value)
    decreases fuel, 0, 0, 0
  {
    if fuel == 0 then Failure(OutOfFuel)
    else VisitFile(env, nested, items, fuel - 1)
  }

  /** The loading half of `expand_mods`, for a module without content:
      expand its file with the same package, node and depth but the base of
      the file found. */
  function LoadMod(env: Env, ctx: Ctx, name: Name, fuel: nat): (r: Result<seq<Item>, Error>)
    ensures ResolveMod(env.fs, ctx.base, name).None? ==> r == Failure(ModNotFound(name))
    ensures r.Success? ==> fuel > 0 && Closed(r.value) && ExternsSkipped(env.skip, r.value)
    decreases fuel, 0, 0, 1
  {
    var (base, items) :- ReadMod(env.fs, ctx.base, name);
    ExpandNested(env, ctx.(base := base), items, fuel)
  }

  /** The loop of `visit_file_mut` (and of a module's content) over items:
      one visited item per item, in order, each with its header kept. */
  function VisitItems(env: Env, ctx: Ctx, items: seq<Item>, fuel: nat): (r: Result<seq<Item>, Error>)
    ensures r.Success? ==> |r.value| == |items| && Closed(r.value)
    ensures r.Success? ==> forall i | 0 <= i < |items| :: SameHead(items[i], r.value[i])
    decreases fuel, 1, ItemsSize(items), 1
  {
    if |items| == 0 then Success([])
    else
      var head :- VisitItem(env, ctx, items[0], fuel);
      var tail :- VisitItems(env, ctx, items[1..], fuel);
      Success([head] + tail)
  }

  /** `visit_item_mut` on one item. Paths of other items are rewritten;
      a module is loaded if it has no content (`expand_mods`) and its
      content is then visited by this same expander (`visit_item_mod_mut`). */
  function VisitItem(env: Env, ctx: Ctx, item: Item, fuel: nat): (r: Result<Item, Error>)
    ensures r.Success? ==> ClosedItem(r.value) && SameHead(item, r.value)
    decreases fuel, 1, ItemSize(item), 0
  {
    match item
    case ExternCrate(_) => Success(item)
    case Use(_) => Success(item)
    case Other(ps) =>
      Success(Other(seq(|ps|, k requires 0 <= k < |ps| => StripPath(env, ctx, ps[k]))))
    case Mod(p, n, Inline(c)) =>
      var c' :- VisitItems(env, ctx, c, fuel);
      Success(Mod(p, n, Inline(c')))
    case Mod(p, n, Declared) =>
      var loaded :- LoadMod(env, ctx, n, fuel);
      var c' :- VisitItems(env, ctx, loaded, fuel - 1);
      Success(Mod(p, n, Inline(c')))
  }

  /** In the root package no `use` of the root library survives at the top
      of an expanded file. */
  lemma VisitFileNoRootUse(env: Env, ctx: Ctx, items: seq<Item>, fuel: nat)
    requires IsRoot(env, ctx) && VisitFile(env, ctx, items, fuel).Success?
    ensures forall x | x in VisitFile(env, ctx, items, fuel).value :: !IsUsePath(x, RootName(env))
  {
    var expanded := ExpandExternCrates(env, ctx, items, fuel).value;
    var pruned := ExpandUsePath(env, ctx, expanded);
    var visited := VisitItems(env, ctx, pruned, fuel).value;
    TopLevelKept(env, ctx, expanded, pruned, visited);
  }

  /** The root package and its entry target were found. */
  predicate EntryFound(meta: Metadata)
  {
    && meta.root.Some?
    && PackageById(meta, meta.root.value).Success?
    && SelectTarget(PackageById(meta, meta.root.value).value).Success?
  }

  /** The entry target of the root package, once found. */
  function EntryTarget(meta: Metadata): Target
    requires EntryFound(meta)
  {
    SelectTarget(PackageById(meta, meta.root.value).value).value
  }

  /** `bundle`: find the root package, its entry target (first bin, else
      first lib) and its resolve node, then expand the entry file with a
      depth-0 expander rooted at the entry file's directory. */
  function Bundle(meta: Metadata, fs: FileSystem, skip: set<Name>, fuel: nat): (r: Result<seq<Item>, Error>)
    ensures meta.root.None? ==> r == Failure(RootNotResolved)
    ensures r.Success? ==> Closed(r.value) && ExternsSkipped(skip, r.value)
    ensures r.Success? ==>
      && meta.root.Some?
      && PackageById(meta, meta.root.value).Success?
      && var rootName := RootLibName(PackageById(meta, meta.root.value).value);
         forall x | x in r.value :: !IsUsePath(x, rootName)
    ensures meta.root.Some? && PackageById(meta, meta.root.value).Failure? ==>
      r == Failure(PackageNotFound(meta.root.value))
    ensures (meta.root.Some? && PackageById(meta, meta.root.value).Success? &&
             SelectTarget(PackageById(meta, meta.root.value).value).Failure?) ==>
      r == Failure(TargetNotFound)
    ensures EntryFound(meta) && NodeById(meta, meta.root.value).Failure? ==>
      r == Failure(NodeNotFound(meta.root.value))
    ensures EntryFound(meta) && NodeById(meta, meta.root.value).Success? && |EntryTarget(meta).srcPath| == 0 ==>
      r == Failure(NoParent(EntryTarget(meta).srcPath))
    ensures (&& EntryFound(meta) && NodeById(meta, meta.root.value).Success?
             && |EntryTarget(meta).srcPath| > 0 && ReadParse(fs, EntryTarget(meta).srcPath).Failure?) ==>
      r == Failure(ReadParse(fs, EntryTarget(meta).srcPath).error)
  {
    match meta.root
    case None => Failure(RootNotResolved)
    case Some(rootId) =>
      var rootPackage :- PackageById(meta, rootId);
      var target :- SelectTarget(rootPackage);
      var node :- NodeById(meta, rootId);
      match Parent(target.srcPath)
      case None => Failure(NoParent(target.srcPath))
      case Some(base) =>
        var items :- ReadParse(fs, target.srcPath);
        var env, ctx := Env(meta, rootId, rootPackage, fs, skip), Ctx(base, rootPackage, target, node, 0);
        var r := VisitFile(env, ctx, items, fuel);
        if r.Success? then VisitFileNoRootUse(env, ctx, items, fuel); r else r
  }
}

=== FILE: expander_fuel.dfy ===
/** The failure half of fuel monotonicity: a run that fails for a reason of
    its own (a missing module, an unparsable file, an unknown package) fails
    the same way with more fuel. With the success half in
    `ExpanderInvariance`, more fuel changes no result except `OutOfFuel`. */
module ExpanderFuel {
  import opened Wrappers
  import opened Syntax
  import opened Errors
  import opened Cargo
  import opened Expander
  import opened ExpanderLemmas
  import opened ExpanderInvariance

  /** A failure that the fuel bound did not cause. */
  predicate OwnFailure<T>(r: Result<T, Error>)
  {
    r.Failure? && r.error != OutOfFuel
  }

  /** More fuel changes no result of a file expansion other than the
      cut-off itself. */
  lemma VisitFileMoreFuel(env: Env, ctx: Ctx, items: seq<Item>, fuel: nat, fuel2: nat)
    requires fuel <= fuel2 && VisitFile(env, ctx, items, fuel) != Failure(OutOfFuel)
    ensures VisitFile(env, ctx, items, fuel2) == VisitFile(env, ctx, items, fuel)
  {
    if VisitFile(env, ctx, items, fuel).Success? {
      VisitFileFuel(env, ctx, items, fuel, fuel2);
    } else {
      VisitFileFuelFailure(env, ctx, items, fuel, fuel2);
    }
  }

  lemma {:induction false} VisitFileFuelFailure(env: Env, ctx: Ctx, items: seq<Item>, fuel: nat, fuel2: nat)
    requires fuel <= fuel2 && OwnFailure(VisitFile(env, ctx, items, fuel))
    ensures VisitFile(env, ctx, items, fuel2) == VisitFile(env, ctx, items, fuel)
    decreases fuel, 2, 0, 0
  {
    var expanded := ExpandExternCrates(env, ctx, items, fuel);
    if expanded.Failure? {
      ExpandExternCratesFuelFailure(env, ctx, items, fuel, fuel2);
    } else {
      ExpandExternCratesFuel(env, ctx, items, fuel, fuel2);
      var pruned := ExpandUsePath(env, ctx, expanded.value);
      VisitItemsFuelFailure(env, ctx, pruned, fuel, fuel2);
    }
  }

  lemma {:induction false} ExpandExternCratesFuelFailure(env: Env, ctx: Ctx, items: seq<Item>, fuel: nat, fuel2: nat)
    requires fuel <= fuel2 && OwnFailure(ExpandExternCrates(env, ctx, items, fuel))
    ensures ExpandExternCrates(env, ctx, items, fuel2) == ExpandExternCrates(env, ctx, items, fuel)
    decreases fuel, 1, |items|, 1
  {
    var head := ExpandExternCrate(env, ctx, items[0], fuel);
    if head.Failure? {
      ExpandExternCrateFuelFailure(env, ctx, items[0], fuel, fuel2);
    } else {
      ExpandExternCrateFuel(env, ctx, items[0], fuel, fuel2);
      ExpandExternCratesFuelFailure(env, ctx, items[1..], fuel, fuel2);
    }
  }

  lemma {:induction false} ExpandExternCrateFuelFailure(env: Env, ctx: Ctx, item: Item, fuel: nat, fuel2: nat)
    requires fuel <= fuel2 && OwnFailure(ExpandExternCrate(env, ctx, item, fuel))
    ensures ExpandExternCrate(env, ctx, item, fuel2) == ExpandExternCrate(env, ctx, item, fuel)
    decreases fuel, 1, 0, 0
  {
    if IsRootLibExpand(env, ctx, item.name) {
      ExpandCrateFuelFailure(env, ctx, env.rootId, fuel, fuel2);
    } else {
      ExpandCrateFuelFailure(env, ctx, DepOf(ctx.node, item.name).value, fuel, fuel2);
    }
  }

  lemma {:induction false} ExpandCrateFuelFailure(env: Env, ctx: Ctx, crateId: PackageId, fuel: nat, fuel2: nat)
    requires fuel <= fuel2 && OwnFailure(ExpandCrate(env, ctx, crateId, fuel))
    ensures ExpandCrate(env, ctx, crateId, fuel2) == ExpandCrate(env, ctx, crateId, fuel)
    decreases fuel, 0, 0, 1
  {
    if LoadCrate(env, crateId).Success? {
      var s := LoadCrate(env, crateId).value;
      ExpandCrateIs(env, ctx, crateId, fuel, s);
      ExpandCrateIs(env, ctx, crateId, fuel2, s);
      ExpandNestedFuelFailure(env, CrateCtx(ctx, s), s.lib, fuel, fuel2);
    }
  }

  lemma {:induction false} ExpandNestedFuelFailure(env: Env, nested: Ctx, items: seq<Item>, fuel: nat, fuel2: nat)
    requires fuel <= fuel2 && OwnFailure(ExpandNested(env, nested, items, fuel))
    ensures ExpandNested(env, nested, items, fuel2) == ExpandNested(env, nested, items, fuel)
    decreases fuel, 0, 0, 0
  {
    var f, f2 := fuel - 1, fuel2 - 1;
    ExpandNestedIs(env, nested, items, fuel, f);
    ExpandNestedIs(env, nested, items, fuel2, f2);
    VisitFileFuelFailure(env, nested, items, f, f2);
  }

  lemma {:induction false} LoadModFuelFailure(env: Env, ctx: Ctx, name: Name, fuel: nat, fuel2: nat)
    requires fuel <= fuel2 && OwnFailure(LoadMod(env, ctx, name, fuel))
    ensures LoadMod(env, ctx, name, fuel2) == LoadMod(env, ctx, name, fuel)
    decreases fuel, 0, 0, 1
  {
    if ReadMod(env.fs, ctx.base, name).Success? {
      var (base, items) := ReadMod(env.fs, ctx.base, name).value;
      LoadModIs(env, ctx, name, fuel, base, items);
      LoadModIs(env, ctx, name, fuel2, base, items);
      ExpandNestedFuelFailure(env, ctx.(base := base), items, fuel, fuel2);
    }
  }

  lemma {:induction false} VisitItemsFuelFailure(env: Env, ctx: Ctx, items: seq<Item>, fuel: nat, fuel2: nat)
    requires fuel <= fuel2 && OwnFailure(VisitItems(env, ctx, items, fuel))
    ensures VisitItems(env, ctx, items, fuel2) == VisitItems(env, ctx, items, fuel)
    decreases fuel, 1, ItemsSize(items), 1
  {
    var head := VisitItem(env, ctx, items[0], fuel);
    if head.Failure? {
      VisitItemFuelFailure(env, ctx, items[0], fuel, fuel2);
    } else {
      VisitItemFuel(env, ctx, items[0], fuel, fuel2);
      VisitItemsFuelFailure(env, ctx, items[1..], fuel, fuel2);
    }
  }

  lemma {:induction false} VisitItemFuelFailure(env: Env, ctx: Ctx, item: Item, fuel: nat, fuel2: nat)
    requires fuel <= fuel2 && OwnFailure(VisitItem(env, ctx, item, fuel))
    ensures VisitItem(env, ctx, item, fuel2) == VisitItem(env, ctx, item, fuel)
    decreases fuel, 1, ItemSize(item), 0
  {
    match item
    case Mod(p, n, Inline(c)) =>
      VisitItemsFuelFailure(env, ctx, c, fuel, fuel2);
    case Mod(p, n, Declared) =>
      if LoadMod(env, ctx, n, fuel).Failure? {
        LoadModFuelFailure(env, ctx, n, fuel, fuel2);
      } else {
        LoadModFuel(env, ctx, n, fuel, fuel2);
        var loaded, f, f2 := LoadMod(env, ctx, n, fuel).value, fuel - 1, fuel2 - 1;
        VisitDeclaredIs(env, ctx, p, n, fuel, loaded, f);
        VisitDeclaredIs(env, ctx, p, n, fuel2, loaded, f2);
        VisitItemsFuelFailure(env, ctx, loaded, f, f2);
      }
  }
}

=== FILE: expander_invariance.dfy ===
/** Two facts about the whole engine, each proved by one induction that
    follows its mutual recursion:
    - the target an expander carries and its depth never influence the
      result (the depth is for diagnostics, and the root-library check reads
      only the package and the name);
    - a successful expansion keeps its result when given more fuel, so the
      fuel bound only cuts off runs that recurse without end. */
module ExpanderInvariance {
  import opened Wrappers
  import opened Syntax
  import opened Errors
  import opened Files
  import opened Cargo
  import opened Expander
  import opened ExpanderLemmas

  /** Two expanders that may differ only in their target and depth. */
  predicate SameDecisions(c1: Ctx, c2: Ctx)
  {
    c1.base == c2.base && c1.package == c2.package && c1.node == c2.node
  }

  /** A crate whose lookups succeed is expanded by a fresh expander rooted
      at its lib's directory, with its own package, target and node, one
      level deeper than the caller. */
  lemma ExpandCrateIs(env: Env, ctx: Ctx, crateId: PackageId, fuel: nat, s: CrateSource)
    requires LoadCrate(env, crateId) == Success(s)
    ensures ExpandCrate(env, ctx, crateId, fuel) == ExpandNested(env, CrateCtx(ctx, s), s.lib, fuel)
  {
  }

  /** A module file that is found and parses is expanded by an expander
      that differs from the declaring one in its base only. */
  lemma LoadModIs(env: Env, ctx: Ctx, name: Name, fuel: nat, base: FilePath, items: seq<Item>)
    requires ReadMod(env.fs, ctx.base, name) == Success((base, items))
    ensures LoadMod(env, ctx, name, fuel) == ExpandNested(env, ctx.(base := base), items, fuel)
  {
  }

  lemma {:induction false} VisitFileCtx(env: Env, c1: Ctx, c2: Ctx, items: seq<Item>, fuel: nat)
    requires SameDecisions(c1, c2)
    ensures VisitFile(env, c1, items, fuel) == VisitFile(env, c2, items, fuel)
    decreases fuel, 2, 0, 0
  {
    ExpandExternCratesCtx(env, c1, c2, items, fuel);
    var expanded := ExpandExternCrates(env, c1, items, fuel);
    if expanded.Success? {
      var pruned := ExpandUsePath(env, c1, expanded.value);
      assert pruned == ExpandUsePath(env, c2, expanded.value);
      VisitItemsCtx(env, c1, c2, pruned, fuel);
    }
  }

  lemma {:induction false} ExpandExternCratesCtx(env: Env, c1: Ctx, c2: Ctx, items: seq<Item>, fuel: nat)
    requires SameDecisions(c1, c2)
    ensures ExpandExternCrates(env, c1, items, fuel) == ExpandExternCrates(env, c2, items, fuel)
    decreases fuel, 1, |items|, 1
  {
    if |items| > 0 {
      ExpandExternCrateCtx(env, c1, c2, items[0], fuel);
      ExpandExternCratesCtx(env, c1, c2, items[1..], fuel);
    }
  }

  lemma {:induction false} ExpandExternCrateCtx(env: Env, c1: Ctx, c2: Ctx, item: Item, fuel: nat)
    requires SameDecisions(c1, c2)
    ensures ExpandExternCrate(env, c1, item, fuel) == ExpandExternCrate(env, c2, item, fuel)
    decreases fuel, 1, 0, 0
  {
    if Expandable(env, item) {
      if IsRootLibExpand(env, c1, item.name) {
        ExpandCrateCtx(env, c1, c2, env.rootId, fuel);
      } else if DepOf(c1.node, item.name).Some? {
        ExpandCrateCtx(env, c1, c2, DepOf(c1.node, item.name).value, fuel);
      }
    }
  }

  lemma {:induction false} ExpandCrateCtx(env: Env, c1: Ctx, c2: Ctx, crateId: PackageId, fuel: nat)
    requires SameDecisions(c1, c2)
    ensures ExpandCrate(env, c1, crateId, fuel) == ExpandCrate(env, c2, crateId, fuel)
    decreases fuel, 0, 0, 1
  {
    var src := LoadCrate(env, crateId);
    if src.Success? {
      var s := src.value;
      ExpandCrateIs(env, c1, crateId, fuel, s);
      ExpandCrateIs(env, c2, crateId, fuel, s);
      ExpandNestedCtx(env, CrateCtx(c1, s), CrateCtx(c2, s), s.lib, fuel);
    }
  }

  lemma {:induction false} ExpandNestedCtx(env: Env, c1: Ctx, c2: Ctx, items: seq<Item>, fuel: nat)
    requires SameDecisions(c1, c2)
    ensures ExpandNested(env, c1, items, fuel) == ExpandNested(env, c2, items, fuel)
    decreases fuel, 0, 0, 0
  {
    if fuel > 0 {
      var f := fuel - 1;
      ExpandNestedIs(env, c1, items, fuel, f);
      ExpandNestedIs(env, c2, items, fuel, f);
      VisitFileCtx(env, c1, c2, items, f);
    }
  }

  lemma {:induction false} LoadModCtx(env: Env, c1: Ctx, c2: Ctx, name: Name, fuel: nat)
    requires SameDecisions(c1, c2)
    ensures LoadMod(env, c1, name, fuel) == LoadMod(env, c2, name, fuel)
    decreases fuel, 0, 0, 1
  {
    var found := ReadMod(env.fs, c1.base, name);
    if found.Success? {
      var (base, items) := found.value;
      LoadModIs(env, c1, name, fuel, base, items);
      LoadModIs(env, c2, name, fuel, base, items);
      ExpandNestedCtx(env, c1.(base := base), c2.(base := base), items, fuel);
    }
  }

  lemma {:induction false} VisitItemsCtx(env: Env, c1: Ctx, c2: Ctx, items: seq<Item>, fuel: nat)
    requires SameDecisions(c1, c2)
    ensures VisitItems(env, c1, items, fuel) == VisitItems(env, c2, items, fuel)
    decreases fuel, 1, ItemsSize(items), 1
  {
    if |items| > 0 {
      VisitItemCtx(env, c1, c2, items[0], fuel);
      VisitItemsCtx(env, c1, c2, items[1..], fuel);
    }
  }

  lemma {:induction false} VisitItemCtx(env: Env, c1: Ctx, c2: Ctx, item: Item, fuel: nat)
    requires SameDecisions(c1, c2)
    ensures VisitItem(env, c1, item, fuel) == VisitItem(env, c2, item, fuel)
    decreases fuel, 1, ItemSize(item), 0
  {
    match item
    case ExternCrate(_) =>
    case Use(_) =>
    case Other(ps) =>
      assert seq(|ps|, k requires 0 <= k < |ps| => StripPath(env, c1, ps[k])) ==
             seq(|ps|, k requires 0 <= k < |ps| => StripPath(env, c2, ps[k]));
    case Mod(p, n, Inline(c)) =>
      VisitItemsCtx(env, c1, c2, c, fuel);
    case Mod(p, n, Declared) =>
      LoadModCtx(env, c1, c2, n, fuel);
      var loaded := LoadMod(env, c1, n, fuel);
      if loaded.Success? {
        var f := fuel - 1;
        VisitItemsCtx(env, c1, c2, loaded.value, f);
      }
  }

  /** What a successful crate expansion implies about its lookups. */
  lemma ExpandCrateSucceeds(env: Env, ctx: Ctx, crateId: PackageId, fuel: nat)
    requires ExpandCrate(env, ctx, crateId, fuel).Success?
    ensures LoadCrate(env, crateId).Success?
  {
  }

  /** What a successful module load implies about its file. */
  lemma LoadModSucceeds(env: Env, ctx: Ctx, name: Name, fuel: nat)
    requires LoadMod(env, ctx, name, fuel).Success?
    ensures ReadMod(env.fs, ctx.base, name).Success?
  {
  }

  lemma {:induction false} VisitFileFuel(env: Env, ctx: Ctx, items: seq<Item>, fuel: nat, fuel2: nat)
    requires fuel <= fuel2 && VisitFile(env, ctx, items, fuel).Success?
    ensures VisitFile(env, ctx, items, fuel2) == VisitFile(env, ctx, items, fuel)
    decreases fuel, 2, 0, 0
  {
    ExpandExternCratesFuel(env, ctx, items, fuel, fuel2);
    var pruned := ExpandUsePath(env, ctx, ExpandExternCrates(env, ctx, items, fuel).value);
    VisitItemsFuel(env, ctx, pruned, fuel, fuel2);
  }

  lemma {:induction false} ExpandExternCratesFuel(env: Env, ctx: Ctx, items: seq<Item>, fuel: nat, fuel2: nat)
    requires fuel <= fuel2 && ExpandExternCrates(env, ctx, items, fuel).Success?
    ensures ExpandExternCrates(env, ctx, items, fuel2) == ExpandExternCrates(env, ctx, items, fuel)
    decreases fuel, 1, |items|, 1
  {
    if |items| > 0 {
      ExpandExternCrateFuel(env, ctx, items[0], fuel, fuel2);
      ExpandExternCratesFuel(env, ctx, items[1..], fuel, fuel2);
    }
  }

  lemma {:induction false} ExpandExternCrateFuel(env: Env, ctx: Ctx, item: Item, fuel: nat, fuel2: nat)
    requires fuel <= fuel2 && ExpandExternCrate(env, ctx, item, fuel).Success?
    ensures ExpandExternCrate(env, ctx, item, fuel2) == ExpandExternCrate(env, ctx, item, fuel)
    decreases fuel, 1, 0, 0
  {
    if Expandable(env, item) {
      if IsRootLibExpand(env, ctx, item.name) {
        ExpandCrateFuel(env, ctx, env.rootId, fuel, fuel2);
      } else if DepOf(ctx.node, item.name).Some? {
        ExpandCrateFuel(env, ctx, DepOf(ctx.node, item.name).value, fuel, fuel2);
      }
    }
  }

  lemma {:induction false} ExpandCrateFuel(env: Env, ctx: Ctx, crateId: PackageId, fuel: nat, fuel2: nat)
    requires fuel <= fuel2 && ExpandCrate(env, ctx, crateId, fuel).Success?
    ensures ExpandCrate(env, ctx, crateId, fuel2) == ExpandCrate(env, ctx, crateId, fuel)
    decreases fuel, 0, 0, 1
  {
    ExpandCrateSucceeds(env, ctx, crateId, fuel);
    var s := LoadCrate(env, crateId).value;
    ExpandCrateIs(env, ctx, crateId, fuel, s);
    ExpandCrateIs(env, ctx, crateId, fuel2, s);
    ExpandNestedFuel(env, CrateCtx(ctx, s), s.lib, fuel, fuel2);
  }

  lemma {:induction false} ExpandNestedFuel(env: Env, nested: Ctx, items: seq<Item>, fuel: nat, fuel2: nat)
    requires fuel <= fuel2 && ExpandNested(env, nested, items, fuel).Success?
    ensures ExpandNested(env, nested, items, fuel2) == ExpandNested(env, nested, items, fuel)
    decreases fuel, 0, 0, 0
  {
    var f, f2 := fuel - 1, fuel2 - 1;
    ExpandNestedIs(env, nested, items, fuel, f);
    ExpandNestedIs(env, nested, items, fuel2, f2);
    VisitFileFuel(env, nested, items, f, f2);
  }

  /** A nested expansion with fuel left is a visit of the file with one
      unit less. */
  lemma ExpandNestedIs(env: Env, nested: Ctx, items: seq<Item>, fuel: nat, f: nat)
    requires fuel == f + 1
    ensures ExpandNested(env, nested, items, fuel) == VisitFile(env, nested, items, f)
  {
  }

  lemma {:induction false} LoadModFuel(env: Env, ctx: Ctx, name: Name, fuel: nat, fuel2: nat)
    requires fuel <= fuel2 && LoadMod(env, ctx, name, fuel).Success?
    ensures LoadMod(env, ctx, name, fuel2) == LoadMod(env, ctx, name, fuel)
    decreases fuel, 0, 0, 1
  {
    LoadModSucceeds(env, ctx, name, fuel);
    var (base, items) := ReadMod(env.fs, ctx.base, name).value;
    LoadModIs(env, ctx, name, fuel, base, items);
    LoadModIs(env, ctx, name, fuel2, base, items);
    ExpandNestedFuel(env, ctx.(base := base), items, fuel, fuel2);
  }

  lemma {:induction false} VisitItemsFuel(env: Env, ctx: Ctx, items: seq<Item>, fuel: nat, fuel2: nat)
    requires fuel <= fuel2 && VisitItems(env, ctx, items, fuel).Success?
    ensures VisitItems(env, ctx, items, fuel2) == VisitItems(env, ctx, items, fuel)
    decreases fuel, 1, ItemsSize(items), 1
  {
    if |items| > 0 {
      VisitItemFuel(env, ctx, items[0], fuel, fuel2);
      VisitItemsFuel(env, ctx, items[1..], fuel, fuel2);
    }
  }

  lemma {:induction false} VisitItemFuel(env: Env, ctx: Ctx, item: Item, fuel: nat, fuel2: nat)
    requires fuel <= fuel2 && VisitItem(env, ctx, item, fuel).Success?
    ensures VisitItem(env, ctx, item, fuel2) == VisitItem(env, ctx, item, fuel)
    decreases fuel, 1, ItemSize(item), 0
  {
    match item
    case ExternCrate(_) =>
    case Use(_) =>
    case Other(ps) =>
    case Mod(p, n, Inline(c)) =>
      VisitItemsFuel(env, ctx, c, fuel, fuel2);
    case Mod(p, n, Declared) =>
      LoadModFuel(env, ctx, n, fuel, fuel2);
      var loaded, f, f2 := LoadMod(env, ctx, n, fuel).value, fuel - 1, fuel2 - 1;
      VisitDeclaredIs(env, ctx, p, n, fuel, loaded, f);
      VisitDeclaredIs(env, ctx, p, n, fuel2, loaded, f2);
      VisitItemsFuel(env, ctx, loaded, f, f2);
  }
}

=== FILE: expander_lemmas.dfy ===
/** Properties of the expansion engine that relate several calls: how crate
    expansion distributes over an item list, what survives it, what the
    visitor does to a tree that is already closed, and the idempotence of
    import pruning. */
module ExpanderLemmas {
  import opened Wrappers
  import opened Seqs
  import opened Syntax
  import opened Errors
  import opened Files
  import opened Cargo
  import opened Expander

  /** Sequencing of two item-list results: the first failure wins,
      otherwise the lists are concatenated. */
  function AppendResults(a: Result<seq<Item>, Error>, b: Result<seq<Item>, Error>): Result<seq<Item>, Error>
  {
    match a
    case Failure(e) => Failure(e)
    case Success(x) =>
      match b
      case Failure(e) => Failure(e)
      case Success(y) => Success(x + y)
  }

  /** Crate expansion works item by item: expanding a concatenation is
      expanding each part, left part first. */
  lemma {:induction false} ExpandExternCratesAppend(env: Env, ctx: Ctx, a: seq<Item>, b: seq<Item>, fuel: nat)
    ensures ExpandExternCrates(env, ctx, a + b, fuel) ==
      AppendResults(ExpandExternCrates(env, ctx, a, fuel), ExpandExternCrates(env, ctx, b, fuel))
    decreases |a|
  {
    if |a| == 0 {
      assert a + b == b;
      var right := ExpandExternCrates(env, ctx, b, fuel);
      if right.Success? {
        assert [] + right.value == right.value;
      }
    } else {
      assert (a + b)[0] == a[0];
      assert (a + b)[1..] == a[1..] + b;
      ExpandExternCratesAppend(env, ctx, a[1..], b, fuel);
      var head := ExpandExternCrate(env, ctx, a[0], fuel);
      var tail := ExpandExternCrates(env, ctx, a[1..], fuel);
      var right := ExpandExternCrates(env, ctx, b, fuel);
      if head.Success? && tail.Success? && right.Success? {
        assert head.value + (tail.value + right.value) == (head.value + tail.value) + right.value;
      }
    }
  }

  /** Each item is replaced at its own position: the expansion of the list
      is the expansion of the items before it, then its own replacement,
      then the expansion of the items after it. */
  lemma ExpandExternCratesAt(env: Env, ctx: Ctx, items: seq<Item>, i: nat, fuel: nat)
    requires i < |items|
    ensures ExpandExternCrates(env, ctx, items, fuel) ==
      AppendResults(ExpandExternCrates(env, ctx, items[..i], fuel),
        AppendResults(ExpandExternCrate(env, ctx, items[i], fuel),
          ExpandExternCrates(env, ctx, items[i + 1..], fuel)))
  {
    var rest := [items[i]] + items[i + 1..];
    assert items == items[..i] + rest;
    ExpandExternCratesAppend(env, ctx, items[..i], rest, fuel);
    assert rest[0] == items[i] && rest[1..] == items[i + 1..];
  }

  /** A list in which every `extern crate` is skipped comes back unchanged. */
  lemma {:induction false} ExpandExternCratesNoop(env: Env, ctx: Ctx, items: seq<Item>, fuel: nat)
    requires forall x | x in items :: !Expandable(env, x)
    ensures ExpandExternCrates(env, ctx, items, fuel) == Success(items)
    decreases |items|
  {
    if |items| > 0 {
      assert items[0] in items;
      ExpandExternCratesNoop(env, ctx, items[1..], fuel);
      assert items == [items[0]] + items[1..];
    }
  }

  /** Every item that is not an expandable `extern crate` survives crate
      expansion. */
  lemma {:induction false} KeptItemsSurvive(env: Env, ctx: Ctx, items: seq<Item>, x: Item, fuel: nat)
    requires ExpandExternCrates(env, ctx, items, fuel).Success?
    requires x in items && !Expandable(env, x)
    ensures x in ExpandExternCrates(env, ctx, items, fuel).value
    decreases |items|
  {
    if items[0] != x {
      assert x in items[1..];
      KeptItemsSurvive(env, ctx, items[1..], x, fuel);
    }
  }

  /** A skipped `extern crate` written at the top of a file is still there,
      verbatim, after the file is expanded. */
  lemma SkippedCrateSurvives(env: Env, ctx: Ctx, items: seq<Item>, name: Name, fuel: nat)
    requires name in env.skip && ExternCrate(name) in items
    requires VisitFile(env, ctx, items, fuel).Success?
    ensures ExternCrate(name) in VisitFile(env, ctx, items, fuel).value
  {
    var x := ExternCrate(name);
    var expanded := ExpandExternCrates(env, ctx, items, fuel).value;
    KeptItemsSurvive(env, ctx, items, x, fuel);
    var pruned := ExpandUsePath(env, ctx, expanded);
    ExpandUsePathRetains(env, ctx, expanded);
    assert multiset(pruned)[x] == multiset(expanded)[x] > 0;
    assert x in pruned;
    var i :| 0 <= i < |pruned| && pruned[i] == x;
    var visited := VisitItems(env, ctx, pruned, fuel).value;
    assert SameHead(pruned[i], visited[i]);
  }

  /** Pruning imports twice prunes nothing more. */
  lemma ExpandUsePathIdempotent(env: Env, ctx: Ctx, items: seq<Item>)
    ensures ExpandUsePath(env, ctx, ExpandUsePath(env, ctx, items)) == ExpandUsePath(env, ctx, items)
  {
    if IsRoot(env, ctx) {
      FilterIdempotent(items, KeepItem(env));
    }
  }

  /** On a closed tree the visitor loads nothing and cannot fail, whatever
      the fuel: it is exactly the structural map of the path rewrite. */
  lemma {:induction false} VisitItemsClosed(env: Env, ctx: Ctx, items: seq<Item>, fuel: nat)
    requires Closed(items)
    ensures VisitItems(env, ctx, items, fuel) == Success(MapItemsPaths(Stripper(env, ctx), items))
    decreases ItemsSize(items), 1
  {
    if |items| > 0 {
      VisitItemClosed(env, ctx, items[0], fuel);
      VisitItemsClosed(env, ctx, items[1..], fuel);
    }
  }

  lemma {:induction false} VisitItemClosed(env: Env, ctx: Ctx, item: Item, fuel: nat)
    requires ClosedItem(item)
    ensures VisitItem(env, ctx, item, fuel) == Success(MapItemPaths(Stripper(env, ctx), item))
    decreases ItemSize(item), 0
  {
    match item
    case ExternCrate(_) =>
    case Use(_) =>
    case Other(ps) =>
      var f := Stripper(env, ctx);
      assert seq(|ps|, k requires 0 <= k < |ps| => StripPath(env, ctx, ps[k])) ==
             seq(|ps|, k requires 0 <= k < |ps| => f(ps[k]));
    case Mod(p, n, content) =>
      VisitItemsClosed(env, ctx, content.items, fuel);
  }

  /** A path rewrite that changes no path changes no tree. */
  lemma {:induction false} MapItemsPathsIdentity(f: Path -> Path, items: seq<Item>)
    requires forall p :: f(p) == p
    ensures MapItemsPaths(f, items) == items
    decreases ItemsSize(items), 1
  {
    if |items| > 0 {
      MapItemPathsIdentity(f, items[0]);
      MapItemsPathsIdentity(f, items[1..]);
      assert items == [items[0]] + items[1..];
    }
  }

  lemma {:induction false} MapItemPathsIdentity(f: Path -> Path, item: Item)
    requires forall p :: f(p) == p
    ensures MapItemPaths(f, item) == item
    decreases ItemSize(item), 0
  {
    match item
    case Other(ps) =>
      assert seq(|ps|, k requires 0 <= k < |ps| => f(ps[k])) == ps;
    case Mod(p, n, Inline(c)) =>
      MapItemsPathsIdentity(f, c);
    case _ =>
  }

  /** Outside the root package, visiting a closed tree again (as the
      enclosing expander does with a loaded module or an expanded crate)
      changes nothing. */
  lemma RevisitOutsideRoot(env: Env, ctx: Ctx, items: seq<Item>, fuel: nat)
    requires !IsRoot(env, ctx) && Closed(items)
    ensures VisitItems(env, ctx, items, fuel) == Success(items)
  {
    VisitItemsClosed(env, ctx, items, fuel);
    MapItemsPathsIdentity(Stripper(env, ctx), items);
  }

  /** A file-backed module is visited twice: once by the expander that loads
      it and once more, as content, by the expander that declared it. The
      second visit cannot fail and applies the path rewrite again. */
  lemma LoadedModRevisited(env: Env, ctx: Ctx, p: bool, n: Name, fuel: nat)
    requires LoadMod(env, ctx, n, fuel).Success?
    ensures VisitItem(env, ctx, Mod(p, n, Declared), fuel) ==
      Success(Mod(p, n, Inline(MapItemsPaths(Stripper(env, ctx), LoadMod(env, ctx, n, fuel).value))))
  {
    var loaded, f := LoadMod(env, ctx, n, fuel).value, fuel - 1;
    VisitDeclaredIs(env, ctx, p, n, fuel, loaded, f);
    VisitItemsClosed(env, ctx, loaded, f);
  }

  /** One unfolding of the visitor on a declared module whose file loaded. */
  lemma VisitDeclaredIs(env: Env, ctx: Ctx, p: bool, n: Name, fuel: nat, loaded: seq<Item>, f: nat)
    requires LoadMod(env, ctx, n, fuel) == Success(loaded) && f + 1 == fuel
    ensures VisitItem(env, ctx, Mod(p, n, Declared), fuel) ==
      (var c :- VisitItems(env, ctx, loaded, f); Success(Mod(p, n, Inline(c))))
  {
  }

  /** In the root package one visit of a lone path led by the root
      library's name removes that name. */
  lemma StripLeadingRootName(env: Env, ctx: Ctx, rest: seq<Name>)
    requires IsRoot(env, ctx)
    ensures MapItemsPaths(Stripper(env, ctx), [Other([Path(false, [RootName(env)] + rest)])]) ==
      [Other([Path(false, rest)])]
  {
    var ps := [Path(false, [RootName(env)] + rest)];
    assert ([RootName(env)] + rest)[1..] == rest;
    assert PathStartsWith(ps[0], RootName(env));
    assert Stripper(env, ctx)(ps[0]) == Path(false, rest);
    var mapped := seq(1, k requires 0 <= k < 1 => Stripper(env, ctx)(ps[k]));
    assert mapped[0] == Path(false, rest);
    assert mapped == [Path(false, rest)];
  }

  /** A closed file with no expandable `extern crate` and no `use` of the
      root library has no top-level work to do: visiting it is only the
      path rewrite. */
  lemma VisitFileOnlyStrips(env: Env, ctx: Ctx, items: seq<Item>, fuel: nat)
    requires Closed(items)
    requires forall x | x in items :: !Expandable(env, x) && !IsUsePath(x, RootName(env))
    ensures VisitFile(env, ctx, items, fuel) == Success(MapItemsPaths(Stripper(env, ctx), items))
  {
    ExpandExternCratesNoop(env, ctx, items, fuel);
    if IsRoot(env, ctx) {
      assert forall i | 0 <= i < |items| :: KeepItem(env)(items[i]) by {
        forall i | 0 <= i < |items| ensures KeepItem(env)(items[i]) {
          assert items[i] in items;
        }
      }
      FilterAll(items, KeepItem(env));
    }
    VisitItemsClosed(env, ctx, items, fuel);
  }

  /** A declared module whose sibling file `name.rs` parses is the nested
      expansion of that file's items against the same base directory,
      visited once more by the declaring expander. */
  lemma SiblingFileRevisited(env: Env, ctx: Ctx, p: bool, name: Name, items: seq<Item>, loaded: seq<Item>, fuel: nat)
    requires fuel > 0 && ctx.base + [name + ".rs"] in env.fs
    requires env.fs[ctx.base + [name + ".rs"]] == Parsed(items)
    requires VisitFile(env, ctx, items, fuel - 1) == Success(loaded)
    ensures VisitItem(env, ctx, Mod(p, name, Declared), fuel) ==
      Success(Mod(p, name, Inline(MapItemsPaths(Stripper(env, ctx), loaded))))
  {
    assert ReadMod(env.fs, ctx.base, name) == Success((ctx.base, items));
    assert ctx.(base := ctx.base) == ctx;
    assert LoadMod(env, ctx, name, fuel) == Success(loaded);
    LoadedModRevisited(env, ctx, p, name, fuel);
  }

  /** In the root package, visiting a file that holds the lone path
      `R::R::rest` strips one `R`. */
  lemma RootFileStrippedOnce(env: Env, ctx: Ctx, rest: seq<Name>, fuel: nat)
    requires IsRoot(env, ctx)
    ensures VisitFile(env, ctx, [Other([Path(false, [RootName(env), RootName(env)] + rest)])], fuel) ==
      Success([Other([Path(false, [RootName(env)] + rest)])])
  {
    var name := RootName(env);
    var items := [Other([Path(false, [name, name] + rest)])];
    assert Closed(items);
    assert forall x | x in items :: !Expandable(env, x) && !IsUsePath(x, name);
    VisitFileOnlyStrips(env, ctx, items, fuel);
    assert [name] + ([name] + rest) == [name, name] + rest;
    StripLeadingRootName(env, ctx, [name] + rest);
  }

  /** A root-package module whose file expands to the lone path `R::rest`
      gets the content `rest`: the declaring expander strips `R` again. */
  lemma RootModContentStripped(env: Env, ctx: Ctx, p: bool, name: Name, items: seq<Item>, rest: seq<Name>, fuel: nat)
    requires IsRoot(env, ctx) && fuel > 0
    requires ctx.base + [name + ".rs"] in env.fs && env.fs[ctx.base + [name + ".rs"]] == Parsed(items)
    requires VisitFile(env, ctx, items, fuel - 1) == Success([Other([Path(false, [RootName(env)] + rest)])])
    ensures VisitItem(env, ctx, Mod(p, name, Declared), fuel) ==
      Success(Mod(p, name, Inline([Other([Path(false, rest)])])))
  {
    SiblingFileRevisited(env, ctx, p, name, items, [Other([Path(false, [RootName(env)] + rest)])], fuel);
    StripLeadingRootName(env, ctx, rest);
  }

  /** The visitor itself on such a module: in the root package, a module
      `name` whose file `name.rs` holds the lone path `R::R::rest` gets the
      content `rest`, its leading `R` stripped by each of the two visits. */
  lemma ModFileDoubleStrip(env: Env, ctx: Ctx, p: bool, name: Name, rest: seq<Name>, fuel: nat)
    requires IsRoot(env, ctx) && fuel >= 1
    requires ctx.base + [name + ".rs"] in env.fs
    requires env.fs[ctx.base + [name + ".rs"]] == Parsed([Other([Path(false, [RootName(env), RootName(env)] + rest)])])
    ensures VisitItem(env, ctx, Mod(p, name, Declared), fuel) ==
      Success(Mod(p, name, Inline([Other([Path(false, rest)])])))
  {
    RootFileStrippedOnce(env, ctx, rest, fuel - 1);
    RootModContentStripped(env, ctx, p, name, [Other([Path(false, [RootName(env), RootName(env)] + rest)])], rest, fuel);
  }

  /** An inline module keeps its expander, base directory included, so a
      module declared inside `mod a { .. }` is looked up beside the file
      (`<base>/b.rs`), not under `<base>/a/`. */
  lemma InlineModChildLoadedBeside(env: Env, ctx: Ctx, p: bool, a: Name, q: bool, b: Name, fuel: nat)
    requires fuel > 0 && ctx.base + [b + ".rs"] in env.fs
    requires env.fs[ctx.base + [b + ".rs"]] == Parsed([])
    ensures VisitItem(env, ctx, Mod(p, a, Inline([Mod(q, b, Declared)])), fuel) ==
      Success(Mod(p, a, Inline([Mod(q, b, Inline([]))])))
  {
    assert VisitFile(env, ctx, [], fuel - 1) == Success([]);
    SiblingFileRevisited(env, ctx, q, b, [], [], fuel);
    assert MapItemsPaths(Stripper(env, ctx), []) == [];
    var inner := [Mod(q, b, Declared)];
    assert inner[0] == Mod(q, b, Declared) && inner[1..] == [];
    assert VisitItems(env, ctx, inner[1..], fuel) == Success([]);
    assert [Mod(q, b, Inline([]))] + [] == [Mod(q, b, Inline([]))];
    assert VisitItems(env, ctx, inner, fuel) == Success([Mod(q, b, Inline([]))]);
  }

  /** Crate expansion only looks at the top level of a file: an
      `extern crate` inside an inline `mod m { .. }` is neither expanded nor
      dropped, whatever its name and whatever the dependency graph says. */
  lemma ExternInInlineModKept(env: Env, ctx: Ctx, p: bool, m: Name, x: Name, fuel: nat)
    ensures VisitItem(env, ctx, Mod(p, m, Inline([ExternCrate(x)])), fuel) ==
      Success(Mod(p, m, Inline([ExternCrate(x)])))
  {
    VisitItemClosed(env, ctx, Mod(p, m, Inline([ExternCrate(x)])), fuel);
    assert MapItemsPaths(Stripper(env, ctx), [ExternCrate(x)]) == [ExternCrate(x)];
  }

  /** A dependency `extern crate x` becomes `pub mod x { .. }` holding the
      crate's lib file as expanded by the crate's own expander, or fails as
      that expansion fails. */
  lemma DependencyCrateInlined(env: Env, ctx: Ctx, x: Name, id: PackageId, s: CrateSource, fuel: nat)
    requires x !in env.skip && !IsRootLibExpand(env, ctx, x) && DepOf(ctx.node, x) == Some(id)
    requires LoadCrate(env, id) == Success(s) && fuel > 0
    ensures
      var lib := VisitFile(env, CrateCtx(ctx, s), s.lib, fuel - 1);
      ExpandExternCrate(env, ctx, ExternCrate(x), fuel) ==
        if lib.Success? then Success([Mod(true, x, Inline(lib.value))]) else Failure(lib.error)
  {
    var nested := CrateCtx(ctx, s);
    var lib := VisitFile(env, nested, s.lib, fuel - 1);
    assert ExpandNested(env, nested, s.lib, fuel) == lib;
    assert ExpandCrate(env, ctx, id, fuel) == lib;
    assert Expandable(env, ExternCrate(x)) && ExternCrate(x).name == x;
  }

  /** Pruning the imports of a closed list leaves it closed. */
  lemma PrunedClosed(env: Env, ctx: Ctx, items: seq<Item>)
    requires Closed(items)
    ensures Closed(ExpandUsePath(env, ctx, items))
  {
    var pruned := ExpandUsePath(env, ctx, items);
    ExpandUsePathRetains(env, ctx, items);
    forall k | 0 <= k < |pruned|
      ensures ClosedItem(pruned[k])
    {
      assert pruned[k] in multiset(pruned);
      assert pruned[k] in items;
    }
  }

  /** The items of an expanded crate are visited again by the enclosing
      expander. For the root library named from the root package, spliced
      in flat, the enclosing expander prunes its imports and rewrites its
      paths once more. */
  lemma CrateItemsRevisited(env: Env, ctx: Ctx, fuel: nat)
    requires IsRoot(env, ctx) && RootName(env) !in env.skip
    requires ExpandCrate(env, ctx, env.rootId, fuel).Success?
    ensures VisitFile(env, ctx, [ExternCrate(RootName(env))], fuel) ==
      Success(MapItemsPaths(Stripper(env, ctx), ExpandUsePath(env, ctx, ExpandCrate(env, ctx, env.rootId, fuel).value)))
  {
    var lib := ExpandCrate(env, ctx, env.rootId, fuel).value;
    var items := [ExternCrate(RootName(env))];
    assert items[1..] == [] && lib + [] == lib;
    assert ExpandExternCrates(env, ctx, items, fuel) == Success(lib);
    var pruned := ExpandUsePath(env, ctx, lib);
    PrunedClosed(env, ctx, lib);
    VisitItemsClosed(env, ctx, pruned, fuel);
  }

  /** `bundle` on a package whose lookups all succeed: the depth-0 visit of
      the entry file, by an expander rooted at its directory with the root
      package, the entry target and the root's resolve node. */
  lemma BundleIs(meta: Metadata, fs: FileSystem, skip: set<Name>, fuel: nat)
    requires EntryFound(meta) && NodeById(meta, meta.root.value).Success?
    requires |EntryTarget(meta).srcPath| > 0
    requires EntryTarget(meta).srcPath in fs && fs[EntryTarget(meta).srcPath].Parsed?
    ensures
      var id, t := meta.root.value, EntryTarget(meta);
      var pkg := PackageById(meta, id).value;
      Bundle(meta, fs, skip, fuel) ==
        VisitFile(Env(meta, id, pkg, fs, skip), Ctx(Parent(t.srcPath).value, pkg, t, NodeById(meta, id).value, 0),
                  fs[t.srcPath].items, fuel)
  {
  }
}

=== FILE: files.dfy ===
/** The file system, abstracted to a map from path (its components) to the
    already-parsed content of the file there. */
module Files {
  import opened Wrappers
  import opened Syntax
  import opened Errors

  type FilePath = seq<string>

  /** A readable file: either it parses to items or it does not. */
  datatype SourceFile = Parsed(items: seq<Item>) | Malformed

  type FileSystem = map<FilePath, SourceFile>

  /** `Path::parent`: `None` for the empty path. */
  function Parent(p: FilePath): (r: Option<FilePath>)
    ensures r.Some? <==> |p| > 0
    ensures r.Some? ==> r.value + [p[|p| - 1]] == p
  {
    if |p| == 0 then None else Some(p[..|p| - 1])
  }

  /** `read_file` followed by `syn::parse_file`, both fatal on failure. */
  function ReadParse(fs: FileSystem, p: FilePath): (r: Result<seq<Item>, Error>)
    ensures r.Success? <==> p in fs && fs[p].Parsed?
    ensures p !in fs ==> r == Failure(ReadFailed(p))
    ensures p in fs && fs[p].Malformed? ==> r == Failure(ParseFailed(p))
    ensures r.Success? ==> r.value == fs[p].items
  {
    if p !in fs then Failure(ReadFailed(p))
    else match fs[p]
      case Parsed(items) => Success(items)
      case Malformed => Failure(ParseFailed(p))
  }
}

=== FILE: seqs.dfy ===
/** Generic sequence helpers: the `retain` and `position` of the standard
    library the bundler is written against, with their contracts. */
module Seqs {
  import opened Wrappers

  /** Position of the first element that satisfies `p`, like
      `iter().position(..)`; `find` is the element at that position. */
  function FirstIndex<T>(s: seq<T>, p: T -> bool): (r: Option<nat>)
    ensures r.Some? ==> r.value < |s| && p(s[r.value])
    ensures r.Some? ==> forall j | 0 <= j < r.value :: !p(s[j])
    ensures r.None? <==> forall j | 0 <= j < |s| :: !p(s[j])
  {
    if |s| == 0 then None
    else if p(s[0]) then Some(0)
    else
      match FirstIndex(s[1..], p)
      case None => None
      case Some(k) => Some(k + 1)
  }
  /** `a` can be obtained from `b` by deleting elements. */
  ghost predicate IsSubsequence<T>(a: seq<T>, b: seq<T>)
    decreases |b|
  {
    if |a| == 0 then true
    else if |b| == 0 then false
    else (a[0] == b[0] && IsSubsequence(a[1..], b[1..])) || IsSubsequence(a, b[1..])
  }

  /** The elements of `s` that satisfy `p`, in order, like `Vec::retain`;
      `FilterCounts` states that each keeps its multiplicity. */
  function Filter<T(==,!new)>(s: seq<T>, p: T -> bool): (r: seq<T>)
    ensures forall i | 0 <= i < |r| :: p(r[i])
    ensures IsSubsequence(r, s)
  {
    if |s| == 0 then []
    else
      var rest := Filter(s[1..], p);
      if p(s[0]) then
        var r := [s[0]] + rest;
        assert r[0] == s[0] && r[1..] == rest;
        r
      else
        rest
  }

  /** Retaining keeps every element that satisfies the predicate as often
      as it occurs, and no other. */
  lemma {:induction false} FilterCounts<T(!new)>(s: seq<T>, p: T -> bool)
    ensures forall x :: multiset(Filter(s, p))[x] == (if p(x) then multiset(s)[x] else 0)
  {
    if |s| > 0 {
      FilterCounts(s[1..], p);
      var rest := Filter(s[1..], p);
      assert s == [s[0]] + s[1..];
      assert multiset(s) == multiset{s[0]} + multiset(s[1..]);
      if p(s[0]) {
        assert Filter(s, p) == [s[0]] + rest;
        assert multiset(Filter(s, p)) == multiset{s[0]} + multiset(rest);
      }
    }
  }

  /** Retaining what all satisfy the predicate retains everything. */
  lemma {:induction false} FilterAll<T(!new)>(s: seq<T>, p: T -> bool)
    requires forall i | 0 <= i < |s| :: p(s[i])
    ensures Filter(s, p) == s
  {
    if |s| > 0 {
      assert p(s[0]);
      FilterAll(s[1..], p);
      assert s == [s[0]] + s[1..];
    }
  }

  /** Retaining twice with the same predicate retains nothing more. */
  lemma {:induction false} FilterIdempotent<T(!new)>(s: seq<T>, p: T -> bool)
    ensures Filter(Filter(s, p), p) == Filter(s, p)
  {
    FilterAll(Filter(s, p), p);
  }

  /** Every sequence is a subsequence of itself. */
  lemma {:induction false} SubsequenceRefl<T>(s: seq<T>)
    ensures IsSubsequence(s, s)
  {
    if |s| > 0 {
      SubsequenceRefl(s[1..]);
    }
  }
}

=== FILE: syntax.dfy ===
/** The slice of the Rust syntax tree the expansion engine looks at.
    A file is an ordered sequence of items; everything the engine does not
    rewrite is an `Other` item that only carries the paths inside it. */
module Syntax {
  type Name = string

  /** `a::b::c`, with `global` for a leading `::`. */
  datatype Path = Path(global: bool, segments: seq<Name>)

  /** The tree of a `use` declaration. It holds identifiers, not paths, so
      path rewriting never reaches it. */
  datatype UseTree =
    | UsePath(ident: Name, tree: UseTree)
    | UseName(ident: Name)
    | UseRename(ident: Name, rename: Name)
    | UseGlob
    | UseGroup(items: seq<UseTree>)

  /** The body of a module item: `mod name;` is `Declared` (its items live
      in another file), `mod name { ... }` is `Inline`. */
  datatype ModContent = Declared | Inline(items: seq<Item>)

  datatype Item =
    | ExternCrate(name: Name)
    | Use(tree: UseTree)
    | Mod(public: bool, name: Name, content: ModContent)
    /** Any other item, abstracted to the paths appearing in it. */
    | Other(paths: seq<Path>)

  function ItemSize(i: Item): (r: nat)
    ensures r >= 1
  {
    match i
    case Mod(_, _, Inline(c)) => 1 + ItemsSize(c)
    case _ => 1
  }

  function ItemsSize(s: seq<Item>): nat
  {
    if |s| == 0 then 0 else ItemSize(s[0]) + ItemsSize(s[1..])
  }

  /** Every module reachable by the visitor has its content. */
  predicate ClosedItem(i: Item)
  {
    match i
    case Mod(_, _, content) => content.Inline? && Closed(content.items)
    case _ => true
  }

  predicate Closed(s: seq<Item>)
  {
    forall k | 0 <= k < |s| :: ClosedItem(s[k])
  }

  /** Every `extern crate` left at this level names a skipped crate. */
  predicate ExternsSkipped(skip: set<Name>, s: seq<Item>)
  {
    forall k | 0 <= k < |s| :: s[k].ExternCrate? ==> s[k].name in skip
  }

  /** `b` is what the visitor may turn `a` into: same kind and header,
      `extern crate` and `use` items untouched. */
  predicate SameHead(a: Item, b: Item)
  {
    match a
    case ExternCrate(_) => b == a
    case Use(_) => b == a
    case Mod(p, n, _) => b.Mod? && b.public == p && b.name == n
    case Other(ps) => b.Other? && |b.paths| == |ps|
  }

  predicate PathStartsWith(p: Path, segment: Name)
  {
    |p.segments| > 0 && p.segments[0] == segment
  }

  /** `use first::...;` — only the `UseTree::Path` form counts. */
  predicate IsUsePath(i: Item, first: Name)
  {
    i.Use? && i.tree.UsePath? && i.tree.ident == first
  }

  /** Applies `f` to every path of a tree, descending into module content:
      the structural reference for what a path visitor does. */
  function MapItemPaths(f: Path -> Path, i: Item): Item
  {
    match i
    case Other(ps) => Other(seq(|ps|, k requires 0 <= k < |ps| => f(ps[k])))
    case Mod(p, n, Inline(c)) => Mod(p, n, Inline(MapItemsPaths(f, c)))
    case _ => i
  }

  function MapItemsPaths(f: Path -> Path, s: seq<Item>): seq<Item>
  {
    if |s| == 0 then [] else [MapItemPaths(f, s[0])] + MapItemsPaths(f, s[1..])
  }
}

=== FILE: wrappers.dfy ===
/** Failure-compatible wrappers used throughout the model: `Option` for a
    lookup that may find nothing, `Result` for an operation that may abort
    the bundling run. */
module Wrappers {

  datatype Option<+T> = None | Some(value: T)

  /** `Failure` is a fatal error: the bundler panics and produces no output. */
  datatype Result<+T, +E> = Success(value: T) | Failure(error: E) {

    predicate IsFailure() {
      Failure?
    }

    function PropagateFailure<U>(): Result<U, E>
      requires Failure?
    {
      Failure(error)
    }

    function Extract(): T
      requires Success?
    {
      value
    }
  }
}
